=== FILE: README.md ===
# skycast weather service, modelled in Dafny

This project models the pure logic of `WeatherService`, the Laravel service
behind the skycast weather backend. The service takes a city name typed by
a user and asks the OpenWeather geocoding API where that city is. It then
asks the weather API for the weather at those coordinates. Before answering,
it replaces the Brazilian state name in the reply with its two-letter code
(UF). For autocomplete, it also lists up to five candidate cities with their
states.

The model has five modules:

- `Values` (`values.dfy`): nullable values, the JSON values the providers
  return, and PHP truthiness of a `?string`.
- `Query` (`query.dfy`): how `getWeather` canonicalises the city query.
  Every `-` becomes `,`, every PCRE `\s` run becomes one space, and PHP
  `trim` is applied. This module also holds the cache key built from the
  canonical query.
- `Normalize` (`normalize.dfy`): `normalizeString`. It is written the way the
  source computes it: `mb_strtolower`, then `str_replace` with two arrays.
  `str_replace` is modelled by the effect of the pairs, applied in order, on
  each character. The module proves two facts about this model. It is PHP's
  execution, one whole-string pass per pair. And it equals a simple
  character-by-character fold: lower-case, then strip the accent.
- `States` (`states.dfy`): `formatState`. This covers the 27-entry table,
  the exact `foreach` lookup on normalised names, and the fallback to the
  input.
- `Weather` (`weather.dfy`): the decisions of `getWeather` and
  `searchCities`. The HTTP endpoints are function parameters: the geocoder
  takes `q` and `limit`, and the weather endpoint takes `lat` and `lon`.
  Each returns a failure or a decoded answer. This lets the contracts say
  which request is made and what happens with each answer.

Notes on the code:

- `searchCities` sends the query as given. It does not canonicalise the
  query and does not cache the result.
- `full_name` is built from the raw state name, not from the code.
- `formatState` also returns `null` for `"0"`, because `"0"` is falsy in PHP.
- `trim` on line 34 also strips a leading or trailing NUL, which is not
  whitespace. So only characters that are neither whitespace nor NUL are
  guaranteed to survive canonicalisation.
- The service contains no air-quality, nearby-station, reverse-geocoding or
  coordinate lookup, so none is modelled.

## Model

| member | source | states |
|---|---|---|
| `Query.ReplaceHyphens` | app/Services/WeatherService.php:33 | the result has the input's length and contains no `-`; each `-` becomes `,` and every other character stays where it was |
| `Query.Collapse` | app/Services/WeatherService.php:34 | after `preg_replace('/\s+/', ' ', …)`, with `\s` read as `Query.IsSpace` (space, tab, line feed, vertical tab, form feed, carriage return), the only whitespace left is the plain space, and no two spaces are adjacent; the result is empty exactly when the input is empty; the result starts with a space exactly when the input starts with whitespace; every character in the result is a space or comes from the input |
| `Query.CollapseByPosition` | app/Services/WeatherService.php:34 | `Collapse` equals an independent position-by-position reading of the replacement (`Query.CollapseFrom`): a whitespace character right after whitespace is dropped, any other whitespace character becomes one space, and every other character, NUL included, is kept in place |
| `Query.CollapseAppend` | app/Services/WeatherService.php:34 | the replacement works piece by piece across any cut that follows a non-whitespace character |
| `Query.CollapseSeparates` | app/Services/WeatherService.php:34 | a whitespace run of any length between two non-whitespace pieces becomes exactly one space |
| `Query.CollapseVisible` | app/Services/WeatherService.php:34 | collapsing whitespace keeps every visible character (not whitespace, not NUL) in order |
| `Query.TrimLeft` | app/Services/WeatherService.php:34 | the left half of `trim` removes a prefix made only of characters `trim` strips (`Query.IsTrimmed`: space, tab, line feed, carriage return, NUL, vertical tab), and what remains does not start with one |
| `Query.TrimRight` | app/Services/WeatherService.php:34 | the right half of `trim` removes a suffix made only of characters `trim` strips, and what remains does not end with one |
| `Query.Trim` | app/Services/WeatherService.php:34 | `trim` returns a contiguous slice of its input: everything outside the slice is a character `trim` strips, and neither end of the slice is one; so nothing in the middle is touched, and the visible characters survive in order |
| `Query.TrimSeparates` | app/Services/WeatherService.php:34 | a space between two pieces whose inner ends `trim` does not strip survives `trim`, and each piece is trimmed on its outer end only |
| `Query.TrimKeepsShape` | app/Services/WeatherService.php:34 | `trim` introduces no `-` and keeps correct spacing |
| `Query.TrimLeftKeeps` | app/Services/WeatherService.php:34 | the left half of `trim` drops only invisible characters and keeps correct spacing |
| `Query.TrimRightKeeps` | app/Services/WeatherService.php:34 | the right half of `trim` drops only invisible characters and keeps correct spacing and the first character |
| `Query.Canonicalize` | app/Services/WeatherService.php:33-34 | the visible characters of the query sent to the geocoder are those of the input, in order, with each `-` turned into `,`: nothing but whitespace, and a NUL at either end, is lost, and `Query.CanonicalizeSeparates` states how each whitespace run is shortened |
| `Query.CanonicalizeDropsLeadingNul` | app/Services/WeatherService.php:34 | a NUL in front of a canonical query is removed by `trim` although it is not whitespace, so the geocoder receives the query without it |
| `Query.CanonicalizeSeparates` | app/Services/WeatherService.php:33-34 | two pieces separated by any non-empty whitespace run, with a visible character on each side of it, reach the geocoder as the two canonical pieces joined by exactly one space |
| `Query.CanonicalizeIsCanonical` | app/Services/WeatherService.php:33-34 | the query sent to the geocoder is canonical: it has no `-`, only single plain spaces, and no strippable character at either end |
| `Query.CanonicalFixed` | app/Services/WeatherService.php:33-34 | a canonical string canonicalises to itself |
| `Query.CanonicalizeIdempotent` | app/Services/WeatherService.php:33-34 | canonicalising twice gives the same result as canonicalising once |
| `Query.CanonicalizeOnlyReplaces` | app/Services/WeatherService.php:33-34 | if turning hyphens into commas already gives a canonical string, that string is the canonical form |
| `Query.CanonicalizeHyphenExample` | app/Services/WeatherService.php:33-34 | `Prata-PB` canonicalises to `Prata,PB` |
| `Query.CanonicalizeSpacedExample` | app/Services/WeatherService.php:26-34 | `Recife - PE` canonicalises to `Recife , PE` |
| `Query.CacheKey` | app/Services/WeatherService.php:38 | the cache key is `weather_city_v3_` followed by a digest of the canonical query |
| `Query.CacheKeyOfCanonical` | app/Services/WeatherService.php:33-38 | a query and its canonical form have the same cache key |
| `Normalize.ToLower` | app/Services/WeatherService.php:122 | `mb_strtolower` leaves no capital letter, changes exactly the capitals, and maps each capital of Basic Latin and the Latin-1 Supplement to its Unicode lower-case letter, 32 code points above it |
| `Normalize.AccentedCapitalsFold` | app/Services/WeatherService.php:119-122 | the capital of each of the twelve listed vowels (Á É Í Ó Ú Ã Õ Â Ê Î Ô Û) lower-cases to that vowel and is then stripped to the same base letter, so `Í` compares as `i` |
| `Normalize.MbStrToLower` | app/Services/WeatherService.php:122 | lower-casing keeps the length and lower-cases each character |
| `Normalize.ReplaceChar` | app/Services/WeatherService.php:119-121 | one pass of `str_replace` for one pair keeps the length, turns every occurrence of the search character into the replacement and leaves every other position as it was |
| `Normalize.StrReplace` | app/Services/WeatherService.php:119-121 | `str_replace` with arrays of single characters keeps the length of the string |
| `Normalize.StrReplacePasses` | app/Services/WeatherService.php:119-121 | the per-character model of `str_replace` is PHP's execution pass by pass: with no pairs it changes nothing, and otherwise it first replaces every occurrence of the first search character in the whole string and then applies the remaining pairs to the result |
| `Normalize.ReplaceEachMiss` | app/Services/WeatherService.php:119-121 | a character that is in no search list is left alone |
| `Normalize.ReplaceEachHit` | app/Services/WeatherService.php:119-121 | a character first found at position `k` becomes `replace[k]`, provided no replacement is itself searched for |
| `Normalize.AccentListsShape` | app/Services/WeatherService.php:120-121 | the two lists have 12 entries each; each accented vowel appears once; no base letter is searched for; each vowel is paired with its base letter |
| `Normalize.AccentsBecomeBase` | app/Services/WeatherService.php:119-121 | applying the pairs one after another gives the same result, on every character, as a single simultaneous accent-to-base substitution |
| `Normalize.NormalizeString` | app/Services/WeatherService.php:117-124 | normalising keeps the length |
| `Normalize.NormalizeCharwise` | app/Services/WeatherService.php:117-124 | normalising acts on each character as lower-casing followed by accent stripping; the result has no capital and none of á é í ó ú ã õ â ê î ô û |
| `Normalize.FoldClean` | app/Services/WeatherService.php:117-124 | the comparison form of any character is neither a capital nor one of the twelve accented vowels |
| `Normalize.FoldIdempotent` | app/Services/WeatherService.php:117-124 | folding a folded character changes nothing |
| `Normalize.NormalizeIdempotent` | app/Services/WeatherService.php:117-124 | normalising twice gives the same result as normalising once |
| `Normalize.FoldCapitalsInjective` | app/Services/WeatherService.php:122 | distinct capitals A–Z stay distinct after lower-casing |
| `Normalize.FoldCapital` | app/Services/WeatherService.php:122 | a capital A–Z lower-cases to the letter 32 code points above it |
| `States.FindFrom` | app/Services/WeatherService.php:105-109 | the lookup loop returns the first entry whose normalised name equals the normalised input, or reports that no entry does |
| `States.FormatState` | app/Services/WeatherService.php:85-112 | a falsy input gives `null`; a truthy input whose normalised form matches entry `i` gives entry `i`'s code; a truthy input that matches no entry is returned unchanged |
| `States.TableEntries` | app/Services/WeatherService.php:89-99 | the table has 27 entries; every name is longer than two characters and starts with a capital; every code has two letters |
| `States.NamesSeparated` | app/Services/WeatherService.php:89-99 | no two names have both the same length and the same first letter |
| `States.CodesDistinct` | app/Services/WeatherService.php:89-99 | no two entries have the same code |
| `States.NormalizedNamesDistinct` | app/Services/WeatherService.php:89-108 | the 27 normalised names are pairwise distinct, so the first match of the loop is the only match |
| `States.CodeIsUnknown` | app/Services/WeatherService.php:89-108 | a two-character string matches no entry |
| `States.FormatStateGivesCode` | app/Services/WeatherService.php:102-111 | for a truthy input, the result is entry `i`'s code if and only if the input matches entry `i` or already equals that code |
| `States.CodeIsKept` | app/Services/WeatherService.php:102-111 | a code from the table is returned unchanged, because no name normalises to a two-letter string |
| `States.CodeComesFromMatch` | app/Services/WeatherService.php:89-111 | only an input matching entry `i`, or entry `i`'s code itself, can give entry `i`'s code, because the codes are distinct |
| `States.FormatStateFallback` | app/Services/WeatherService.php:102-111 | for a truthy input, the input is returned unchanged if and only if it matches no entry |
| `States.FormatStateIdempotent` | app/Services/WeatherService.php:85-112 | resolving a resolved state changes nothing |
| `States.FormatStateOfName` | app/Services/WeatherService.php:105-108 | every name in the table resolves to its own code |
| `States.FormatStateUpToFold` | app/Services/WeatherService.php:102-108 | a string that equals a table name up to case and the twelve accents resolves to that name's code |
| `States.FormatStateIgnoresCase` | app/Services/WeatherService.php:102-108 | `PERNAMBUCO` resolves to `PE` |
| `States.FormatStateIgnoresAccents` | app/Services/WeatherService.php:102-108 | `Paraíba` resolves to `PB` |
| `States.FormatStateIgnoresAccentedCapitals` | app/Services/WeatherService.php:102-108 | `PARAÍBA` resolves to `PB` |
| `States.FormatStateIsExact` | app/Services/WeatherService.php:95-108 | `Mato Grosso` resolves to `MT`, not to the `MS` of the longer name |
| `States.FormatStateFalsy` | app/Services/WeatherService.php:87 | `null`, `""` and `"0"` resolve to `null`, the three values PHP treats as falsy (`Values.Truthy`) |
| `States.NoNameBeginsWithN` | app/Services/WeatherService.php:89-99 | no state name begins with `N` |
| `States.FormatStateKeepsUnknown` | app/Services/WeatherService.php:111 | any name beginning with `N` or `n` (such as `Nonexistent State`) is returned unchanged |
| `Weather.FirstCandidate` | app/Services/WeatherService.php:49-53 | the first candidate is used exactly when the geocoding call succeeded and its list is non-empty |
| `Weather.WithState` | app/Services/WeatherService.php:76 | writing `state` into the weather object adds exactly that key, sets it to the given value, and leaves every other key's value unchanged |
| `Weather.FetchWeather` | app/Services/WeatherService.php:38-79 | on a cache miss, the geocoder receives the query with limit 1; a failed or empty answer gives `null`; the weather endpoint is called at the first candidate's coordinates, and a failure there gives `null`; otherwise the weather object comes back with `state` set to the candidate's resolved state |
| `Weather.GetWeather` | app/Services/WeatherService.php:29-79 | the geocoder receives the canonical query, never the raw one, with limit 1; a failed or empty answer gives `null`; the weather endpoint is called at the first candidate's coordinates, and a failure there gives `null`; otherwise the weather object is returned with `state` set to the candidate's resolved state |
| `Weather.CacheEntryServesEquivalentQueries` | app/Services/WeatherService.php:33-38 | two queries with the same canonical form have the same cache key and compute the same value, so serving the cached value is sound; a query's canonical form has the query's own key and value |
| `Weather.StateFieldCases` | app/Services/WeatherService.php:56-76 | the JSON value written into `state` is the matched entry's code, the state itself if it matches no entry, or `null` if it is falsy |
| `Weather.FetchWeatherStateField` | app/Services/WeatherService.php:53-76 | on success, `state` is the matched entry's code, the first candidate's own state if it matches no entry, or `null` if the candidate's state is falsy |
| `Weather.GetWeatherQueriesCanonicalForm` | app/Services/WeatherService.php:33-46 | `Prata-PB` is looked up as `Prata,PB` |
| `Weather.SearchCities` | app/Services/WeatherService.php:125-145 | the raw query goes to the geocoder with limit 5; a failed call gives `[]`; otherwise there is one suggestion per candidate, in order, with `name` and `country` copied, `state` resolved, and `full_name` equal to name ` - ` raw state when the state is truthy, or just the name otherwise (`Weather.ToCityOption` and `Weather.FullName` build one suggestion) |
| `Weather.SearchCitiesStatesResolved` | app/Services/WeatherService.php:139 | every suggested state is already resolved |
| `Weather.FullNameKeepsRawState` | app/Services/WeatherService.php:139-142 | for a candidate whose state is a table name, `state` is the code while `full_name` keeps the full state name |
| `Weather.ShapeAsWritten` | app/Services/WeatherService.php:136-144 | the mapping as written raises exactly when some candidate has no state; otherwise it shapes every candidate in order |
| `Weather.SearchCitiesAsWritten` | app/Services/WeatherService.php:125-145 | `searchCities` as written raises exactly when the call succeeds and some candidate has no state; otherwise it agrees with `SearchCities` |
| `Weather.StatelessCandidateRaises` | app/Services/WeatherService.php:142 | one candidate without a state makes the code as written raise, where `SearchCities` suggests the bare name |

## Left out

- HTTP itself is not modelled: `Http::withoutVerifying()->get`, TLS, timeouts, the API key and the `units`/`lang`/`appid` parameters. A connection error that the HTTP client raises is also out of scope. Each call is modelled only as a function from its `q`/`limit` or `lat`/`lon` parameters to "failed" or a decoded answer.
- `Cache::remember` is not modelled: its store, the 900-second TTL and its handling of `null` values belong to the framework. The model covers the cache-miss computation and the key. `md5` is the `digest` parameter of `Query.CacheKey`; the model does not claim that distinct canonical queries get distinct keys.
- `Normalize.ToLower`: models `mb_strtolower` only on Basic Latin and the Latin-1 Supplement. Capitals from other Unicode blocks (for example `Ā`) are left unchanged, whereas PHP would lower-case them. The model works on characters, not UTF-8 bytes. For valid UTF-8 this gives the same result as PHP's byte-level `str_replace`.
- `Query.IsSpace`: `\s` is read without the `u` modifier, as the pattern is written. So only the six ASCII whitespace characters count, not Unicode spaces.
- `Weather.GeoCandidate.state`: `None` stands for an entry with no `state` key. A `state` key that is present with a JSON `null` value is not modelled separately. Such a value would not make line 142 raise.
- The order of keys in the JSON objects is not modelled. `Weather.WithState` and `Values.Json` use a map, while PHP keeps the weather reply's key order and appends `state` at the end when the reply has no `state` key.
- Latitude and longitude are `real`, so floating-point rounding is not modelled. The model assumes that every candidate has the `name`, `lat`, `lon` and `country` keys, that the weather reply decodes to an object, and that a successful geocoding reply decodes to a list. A body that is not JSON, which `collect(null)` would turn into no suggestions, and a JSON object, whose values lines 136-143 would iterate over, are not represented.
- `app/Http/Controllers/WeatherController.php` is not modelled. It handles the HTTP status and JSON envelope, calls `getForecastData` and `getForecastByCoordinates` (neither exists in the service), and proxies map tiles. Routing, views and build configuration are also not modelled.

## Findings

| source | as written | input that shows it | evidently intended | confidence | as-written member | corrected member |
|---|---|---|---|---|---|---|
| app/Services/WeatherService.php:142 | `full_name` reads `$item['state']` without the `?? null` that line 139 uses, so a candidate with no `state` key triggers an undefined-key error, which the framework's error handler turns into an exception, and the whole search fails | a geocoding answer with one candidate `{name: "Vaduz", country: "LI"}` and no `state` | `full_name` is the bare name, as it already is for an empty state | medium, not executed (depends on the framework turning the warning into an exception) | `Weather.SearchCitiesAsWritten`, `Weather.StatelessCandidateRaises` | `Weather.SearchCities` |

=== FILE: normalize.dfy ===
/** `normalizeString` (app/Services/WeatherService.php, lines 117-124):
    lower-case the string, then replace twelve accented vowels by their
    base letter, for comparing state names only. */
module Normalize {

  /** The search list of `str_replace`, line 120. */
  const AccentSearch: seq<char> := ['á', 'é', 'í', 'ó', 'ú', 'ã', 'õ', 'â', 'ê', 'î', 'ô', 'û']

  /** The replacement list of `str_replace`, line 121. */
  const AccentReplace: seq<char> := ['a', 'e', 'i', 'o', 'u', 'a', 'o', 'a', 'e', 'i', 'o', 'u']

  /** The capitals of the twelve accented vowels, in the order of line 120:
      Unicode's upper-case forms of `AccentSearch`. */
  const AccentCapitals: seq<char> := ['Á', 'É', 'Í', 'Ó', 'Ú', 'Ã', 'Õ', 'Â', 'Ê', 'Î', 'Ô', 'Û']

  /** Upper-case letters of Basic Latin and of the Latin-1 Supplement
      (U+00C0 to U+00DE, except the multiplication sign U+00D7). */
  predicate IsUpper(c: char) {
    ('A' <= c <= 'Z') || ('À' <= c <= 'Þ' && c != '×')
  }

  /** `mb_strtolower` on one character: in both blocks the lower-case
      letter sits 32 code points above its capital. */
  function ToLower(c: char): (d: char)
    ensures !IsUpper(d)
    ensures !IsUpper(c) <==> d == c
    ensures IsUpper(c) ==> d as int == c as int + 32
  {
    if IsUpper(c) then (c as int + 32) as char else c
  }

  /** `mb_strtolower`, line 122. */
  function MbStrToLower(s: string): (r: string)
    ensures |r| == |s|
    ensures forall i :: 0 <= i < |s| ==> r[i] == ToLower(s[i])
  {
    seq(|s|, i requires 0 <= i < |s| => ToLower(s[i]))
  }

  /** What one character becomes when the pairs of `search` and `replace`
      are applied to it one after the other. */
  function ReplaceEach(search: seq<char>, replace: seq<char>, c: char): char
    requires |search| == |replace|
  {
    if search == [] then c
    else ReplaceEach(search[1..], replace[1..], if c == search[0] then replace[0] else c)
  }

  /** One pass of `str_replace`: every occurrence of `from` becomes `to`. */
  function ReplaceChar(from: char, to: char, s: string): (r: string)
    ensures |r| == |s|
    ensures forall i :: 0 <= i < |s| ==> r[i] == (if s[i] == from then to else s[i])
  {
    seq(|s|, i requires 0 <= i < |s| => if s[i] == from then to else s[i])
  }

  /** `str_replace($search, $replace, $s)` with arrays of single
      characters: each character ends up as the whole list of pairs,
      applied in order, makes it. */
  function StrReplace(search: seq<char>, replace: seq<char>, s: string): (r: string)
    requires |search| == |replace|
    ensures |r| == |s|
  {
    seq(|s|, i requires 0 <= i < |s| => ReplaceEach(search, replace, s[i]))
  }

  /** PHP runs `str_replace` with arrays pass by pass: every occurrence of
      the first search character in the whole string is replaced, then the
      second is searched in the result, and so on. `StrReplace` is that
      sequence of passes. */
  lemma StrReplacePasses(search: seq<char>, replace: seq<char>, s: string)
    requires |search| == |replace|
    ensures search == [] ==> StrReplace(search, replace, s) == s
    ensures search != [] ==>
      StrReplace(search, replace, s) == StrReplace(search[1..], replace[1..], ReplaceChar(search[0], replace[0], s))
  {
  }

  /** The accented lower-case vowel `c` stands for, read as one
      simultaneous substitution; any other character is kept. */
  function StripAccent(c: char): char {
    if c == 'á' || c == 'ã' || c == 'â' then 'a'
    else if c == 'é' || c == 'ê' then 'e'
    else if c == 'í' || c == 'î' then 'i'
    else if c == 'ó' || c == 'õ' || c == 'ô' then 'o'
    else if c == 'ú' || c == 'û' then 'u'
    else c
  }

  /** The comparison form of one character. */
  function Fold(c: char): char {
    StripAccent(ToLower(c))
  }

  /** `normalizeString`, lines 117-124, as written: lower-case first, then
      the sequential accent replacement. It acts character by character
      as `Fold`, so it keeps the length, and leaves no capital and none of
      the twelve accented vowels. */
  function NormalizeString(s: string): (r: string)
    ensures |r| == |s|
  {
    StrReplace(AccentSearch, AccentReplace, MbStrToLower(s))
  }

  /** `NormalizeString` acts character by character as `Fold`, and leaves
      no capital and none of the twelve accented vowels. */
  lemma NormalizeCharwise(s: string)
    ensures var r := NormalizeString(s);
      && (forall i :: 0 <= i < |s| ==> r[i] == Fold(s[i]))
      && (forall i :: 0 <= i < |r| ==> !IsUpper(r[i]) && r[i] !in AccentSearch)
  {
    var r := NormalizeString(s);
    AccentsBecomeBase();
    forall i | 0 <= i < |s|
      ensures r[i] == Fold(s[i])
      ensures !IsUpper(r[i]) && r[i] !in AccentSearch
    {
      FoldClean(s[i]);
    }
  }

  /** The comparison form of a character is neither a capital nor one of
      the twelve accented vowels. */
  lemma FoldClean(c: char)
    ensures !IsUpper(Fold(c)) && Fold(c) !in AccentSearch
  {
  }

  /** A character replaced by an earlier pair is never searched again,
      because no replacement is itself a search character. */
  lemma {:induction false} ReplaceEachMiss(search: seq<char>, replace: seq<char>, c: char)
    requires |search| == |replace|
    requires c !in search
    ensures ReplaceEach(search, replace, c) == c
    decreases |search|
  {
    if search != [] {
      assert c !in search[1..];
      ReplaceEachMiss(search[1..], replace[1..], c);
    }
  }

  /** A character found at `k` (and not before) ends up as `replace[k]`
      provided no replacement character is searched for. */
  lemma {:induction false} ReplaceEachHit(search: seq<char>, replace: seq<char>, c: char, k: nat)
    requires |search| == |replace|
    requires k < |search| && search[k] == c
    requires forall j :: 0 <= j < k ==> search[j] != c
    requires forall j :: 0 <= j < |replace| ==> replace[j] !in search
    ensures ReplaceEach(search, replace, c) == replace[k]
    decreases |search|
  {
    if k == 0 {
      assert replace[0] !in search[1..];
      ReplaceEachMiss(search[1..], replace[1..], replace[0]);
    } else {
      forall j | 0 <= j < |replace[1..]|
        ensures replace[1..][j] !in search[1..]
      {
        assert replace[j + 1] !in search;
      }
      ReplaceEachHit(search[1..], replace[1..], c, k - 1);
    }
  }

  /** The two lists of lines 120-121 pair each accented vowel, listed
      once, with its base letter, and no base letter is searched for. */
  lemma AccentListsShape()
    ensures |AccentSearch| == |AccentReplace| == 12
    ensures forall j, k :: 0 <= j < k < |AccentSearch| ==> AccentSearch[j] != AccentSearch[k]
    ensures forall j :: 0 <= j < |AccentReplace| ==> AccentReplace[j] !in AccentSearch
    ensures forall k :: 0 <= k < |AccentSearch| ==> StripAccent(AccentSearch[k]) == AccentReplace[k]
  {
  }

  /** PHP's sequential replacement with the lists of lines 120-121 agrees,
      on every character, with the simultaneous substitution `StripAccent`. */
  lemma AccentsBecomeBase()
    ensures forall c :: ReplaceEach(AccentSearch, AccentReplace, c) == StripAccent(c)
  {
    AccentListsShape();
    forall c
      ensures ReplaceEach(AccentSearch, AccentReplace, c) == StripAccent(c)
    {
      if k :| 0 <= k < |AccentSearch| && AccentSearch[k] == c {
        ReplaceEachHit(AccentSearch, AccentReplace, c, k);
      } else {
        ReplaceEachMiss(AccentSearch, AccentReplace, c);
      }
    }
  }

  /** The comparison form of a character is its own comparison form. */
  lemma FoldIdempotent(c: char)
    ensures Fold(Fold(c)) == Fold(c)
  {
  }

  /** Normalising twice is normalising once. */
  lemma NormalizeIdempotent(s: string)
    ensures NormalizeString(NormalizeString(s)) == NormalizeString(s)
  {
    var once := NormalizeString(s);
    NormalizeCharwise(s);
    NormalizeCharwise(once);
    forall i | 0 <= i < |s|
      ensures NormalizeString(once)[i] == once[i]
    {
      FoldIdempotent(s[i]);
    }
  }

  /** Distinct capitals of Basic Latin stay distinct. */
  lemma FoldCapitalsInjective(a: char, b: char)
    requires 'A' <= a <= 'Z' && 'A' <= b <= 'Z' && a != b
    ensures Fold(a) != Fold(b)
  {
  }

  /** A capital of Basic Latin folds to its own lower-case letter. */
  lemma FoldCapital(a: char)
    requires 'A' <= a <= 'Z'
    ensures Fold(a) as int == a as int + 32
  {
  }

  /** The capital of each listed vowel lower-cases to that vowel, so it is
      stripped to the same base letter: `Í` compares as `i`. */
  lemma AccentedCapitalsFold(k: int)
    requires 0 <= k < |AccentCapitals|
    ensures ToLower(AccentCapitals[k]) == AccentSearch[k]
    ensures Fold(AccentCapitals[k]) == AccentReplace[k]
  {
  }
}

=== FILE: query.dfy ===
/** Canonicalisation of a city query before geocoding and caching
    (app/Services/WeatherService.php, `getWeather`, lines 33-38):
    every `-` becomes `,`, every run of whitespace becomes one space, and
    the ends are trimmed. The canonical string alone decides the cache key. */
module Query {

  /** PCRE's `\s` outside UTF mode: space, tab, line feed, vertical tab,
      form feed and carriage return. */
  predicate IsSpace(c: char) {
    c == ' ' || c == '\t' || c == '\n' || c == '\U{B}' || c == '\U{C}' || c == '\r'
  }

  /** The characters PHP's `trim` strips when no list is given: space, tab,
      line feed, carriage return, NUL and vertical tab (not form feed). */
  predicate IsTrimmed(c: char) {
    c == ' ' || c == '\t' || c == '\n' || c == '\r' || c == '\0' || c == '\U{B}'
  }

  /** A character that canonicalisation never drops. */
  predicate IsVisible(c: char) {
    !IsSpace(c) && c != '\0'
  }

  /** The visible characters of `s`, in order. */
  function Visible(s: string): string {
    if s == [] then [] else (if IsVisible(s[0]) then [s[0]] else []) + Visible(s[1..])
  }

  /** Positions `i` and `i + 1` of `s` are not both spaces. */
  predicate NoDoubleSpaceAt(s: string, i: int)
    requires 0 <= i < |s| - 1
  {
    s[i] != ' ' || s[i + 1] != ' '
  }

  /** Whitespace is only the plain space, and never two spaces in a row. */
  predicate WellSpaced(s: string) {
    && (forall i :: 0 <= i < |s| && IsSpace(s[i]) ==> s[i] == ' ')
    && (forall i :: 0 <= i < |s| - 1 ==> NoDoubleSpaceAt(s, i))
  }

  /** What a canonical query looks like. */
  predicate IsCanonical(s: string) {
    && '-' !in s
    && WellSpaced(s)
    && (s != [] ==> !IsTrimmed(s[0]) && !IsTrimmed(s[|s| - 1]))
  }

  /** `str_replace('-', ',', $city)`. */
  function ReplaceHyphens(s: string): (r: string)
    ensures |r| == |s|
    ensures '-' !in r
    ensures forall i :: 0 <= i < |s| ==> (s[i] == '-' ==> r[i] == ',') && (s[i] != '-' ==> r[i] == s[i])
  {
    seq(|s|, i requires 0 <= i < |s| => if s[i] == '-' then ',' else s[i])
  }

  /** `s` without its leading whitespace run. */
  function DropSpaces(s: string): (r: string)
    ensures |r| <= |s| && r == s[|s| - |r|..]
    ensures forall i :: 0 <= i < |s| - |r| ==> IsSpace(s[i])
    ensures r == [] || !IsSpace(r[0])
    ensures s != [] && IsSpace(s[0]) ==> |r| < |s|
  {
    if s != [] && IsSpace(s[0]) then DropSpaces(s[1..]) else s
  }

  /** `preg_replace('/\s+/', ' ', $s)`: each maximal whitespace run becomes
      a single space. */
  function Collapse(s: string): (r: string)
    ensures WellSpaced(r)
    ensures r == [] <==> s == []
    ensures r != [] ==> (r[0] == ' ' <==> IsSpace(s[0]))
    ensures forall c :: c in r ==> c == ' ' || c in s
    decreases |s|
  {
    if s == [] then []
    else if IsSpace(s[0]) then
      var rest := Collapse(DropSpaces(s));
      WellSpacedCons(' ', rest);
      [' '] + rest
    else
      var rest := Collapse(s[1..]);
      WellSpacedCons(s[0], rest);
      [s[0]] + rest
  }

  /** Position `i` of `s` is whitespace that follows whitespace, so the
      replacement absorbs it into the run it continues. */
  predicate Absorbed(s: string, i: int)
    requires 0 <= i < |s|
  {
    0 < i && IsSpace(s[i - 1]) && IsSpace(s[i])
  }

  /** What a kept position becomes: whitespace turns into a plain space. */
  function Blank(c: char): char {
    if IsSpace(c) then ' ' else c
  }

  /** `preg_replace('/\s+/', ' ', $s)` read position by position from `i`
      on: a position that is not absorbed is kept, as `Blank` of it. */
  function CollapseFrom(s: string, i: int): string
    requires 0 <= i <= |s|
    decreases |s| - i
  {
    if i == |s| then [] else Kept(s, i) + CollapseFrom(s, i + 1)
  }

  /** What position `i` of `s` contributes to the replacement. */
  function Kept(s: string, i: int): string
    requires 0 <= i < |s|
  {
    if Absorbed(s, i) then [] else [Blank(s[i])]
  }

  /** `ltrim` with the default character list. */
  function TrimLeft(s: string): (r: string)
    ensures |r| <= |s| && r == s[|s| - |r|..]
    ensures forall i :: 0 <= i < |s| - |r| ==> IsTrimmed(s[i])
    ensures r == [] || !IsTrimmed(r[0])
  {
    if s != [] && IsTrimmed(s[0]) then TrimLeft(s[1..]) else s
  }

  /** `rtrim` with the default character list. */
  function TrimRight(s: string): (r: string)
    ensures |r| <= |s| && r == s[..|r|]
    ensures forall i :: |r| <= i < |s| ==> IsTrimmed(s[i])
    ensures r == [] || !IsTrimmed(r[|r| - 1])
  {
    if s != [] && IsTrimmed(s[|s| - 1]) then TrimRight(s[..|s| - 1]) else s
  }

  /** `trim` with the default character list: strips both ends, keeps
      every visible character and the order of what remains. */
  function Trim(s: string): (r: string)
    ensures r != [] ==> !IsTrimmed(r[0]) && !IsTrimmed(r[|r| - 1])
    ensures exists a, b :: TrimmedSlice(s, r, a, b)
    ensures Visible(r) == Visible(s)
  {
    TrimIsSlice(s);
    TrimLeftKeeps(s);
    TrimRightKeeps(TrimLeft(s));
    TrimRight(TrimLeft(s))
  }

  /** `trim` introduces no `-` and keeps correct spacing. */
  lemma TrimKeepsShape(s: string)
    ensures '-' !in s ==> '-' !in Trim(s)
    ensures WellSpaced(s) ==> WellSpaced(Trim(s))
  {
    TrimLeftKeeps(s);
    TrimRightKeeps(TrimLeft(s));
  }

  /** The query string handed to the geocoder, lines 33-34: its visible
      characters are those of the query, with every `-` turned into `,`. */
  function Canonicalize(city: string): (r: string)
    ensures Visible(r) == Visible(ReplaceHyphens(city))
  {
    var replaced := ReplaceHyphens(city);
    var collapsed := Collapse(replaced);
    CollapseVisible(replaced);
    Trim(collapsed)
  }

  /** The query handed to the geocoder has no `-`, no whitespace but single
      plain spaces, and nothing `trim` would strip at either end. */
  lemma CanonicalizeIsCanonical(city: string)
    ensures IsCanonical(Canonicalize(city))
  {
    var collapsed := Collapse(ReplaceHyphens(city));
    assert '-' !in collapsed;
    TrimKeepsShape(collapsed);
  }

  /** The cache key of line 38. `digest` stands for `md5`, which is foreign
      code: the model only relies on it being a function. */
  function CacheKey(digest: string -> string, city: string): (key: string)
    ensures |key| >= 16 && key[..16] == "weather_city_v3_"
  {
    "weather_city_v3_" + digest(Canonicalize(city))
  }

  /** `r` is `s[a..b]` and every character of `s` outside that slice is
      one `trim` strips. */
  predicate TrimmedSlice(s: string, r: string, a: int, b: int) {
    && 0 <= a <= b <= |s|
    && r == s[a..b]
    && forall i :: 0 <= i < |s| && (i < a || b <= i) ==> IsTrimmed(s[i])
  }

  /** `trim` removes a stretch of trimmed characters from each end and
      nothing from the middle. */
  lemma TrimIsSlice(s: string)
    ensures exists a, b :: TrimmedSlice(s, TrimRight(TrimLeft(s)), a, b)
  {
    var left := TrimLeft(s);
    var a := |s| - |left|;
    var right := TrimRight(left);
    OutsideOfSlices(s, left, right, a, a + |right|);
  }

  /** Two cuts, one from each end, leave a trimmed slice. */
  lemma OutsideOfSlices(s: string, left: string, right: string, a: int, b: int)
    requires 0 <= a <= b <= |s| && left == s[a..] && right == left[..b - a]
    requires forall i :: 0 <= i < a ==> IsTrimmed(s[i])
    requires forall i :: b - a <= i < |left| ==> IsTrimmed(left[i])
    ensures TrimmedSlice(s, right, a, b)
  {
    forall i | b <= i < |s|
      ensures IsTrimmed(s[i])
    {
      assert s[i] == left[i - a];
    }
  }

  /** `ltrim` only drops invisible characters from the front. */
  lemma TrimLeftKeeps(s: string)
    ensures Visible(TrimLeft(s)) == Visible(s)
    ensures '-' !in s ==> '-' !in TrimLeft(s)
    ensures WellSpaced(s) ==> WellSpaced(TrimLeft(s))
  {
    var left := TrimLeft(s);
    var k := |s| - |left|;
    SplitKeeps(s, k);
    assert s[k..] == left;
    TrimmedInvisible(s[..k]);
  }

  /** `rtrim` only drops invisible characters from the back, and keeps
      the first character of what remains. */
  lemma TrimRightKeeps(s: string)
    ensures Visible(TrimRight(s)) == Visible(s)
    ensures '-' !in s ==> '-' !in TrimRight(s)
    ensures WellSpaced(s) ==> WellSpaced(TrimRight(s))
    ensures TrimRight(s) != [] ==> TrimRight(s)[0] == s[0]
  {
    var right := TrimRight(s);
    var k := |right|;
    SplitKeeps(s, k);
    assert s[..k] == right;
    TrimmedInvisible(s[k..]);
  }

  /** Cutting `s` at `k` splits its visible characters at the cut, and each
      piece keeps the absence of `-` and correct spacing. */
  lemma SplitKeeps(s: string, k: int)
    requires 0 <= k <= |s|
    ensures Visible(s) == Visible(s[..k]) + Visible(s[k..])
    ensures '-' !in s ==> '-' !in s[..k] && '-' !in s[k..]
    ensures WellSpaced(s) ==> WellSpaced(s[..k]) && WellSpaced(s[k..])
  {
    SplitVisible(s, k);
    if '-' !in s { SplitNoHyphen(s, k); }
    if WellSpaced(s) { SplitWellSpaced(s, k); }
  }

  lemma SplitVisible(s: string, k: int)
    requires 0 <= k <= |s|
    ensures Visible(s) == Visible(s[..k]) + Visible(s[k..])
  {
    assert s == s[..k] + s[k..];
    VisibleAppend(s[..k], s[k..]);
  }

  lemma SplitNoHyphen(s: string, k: int)
    requires 0 <= k <= |s|
    requires '-' !in s
    ensures '-' !in s[..k] && '-' !in s[k..]
  {
  }

  lemma SplitWellSpaced(s: string, k: int)
    requires 0 <= k <= |s|
    requires WellSpaced(s)
    ensures WellSpaced(s[..k]) && WellSpaced(s[k..])
  {
    WellSpacedSlice(s, 0, k);
    assert s[0..k] == s[..k];
    WellSpacedSlice(s, k, |s|);
    assert s[k..|s|] == s[k..];
  }

  lemma {:induction false} VisibleAppend(a: string, b: string)
    ensures Visible(a + b) == Visible(a) + Visible(b)
    decreases |a|
  {
    if a == [] {
      assert a + b == b;
    } else {
      var head := if IsVisible(a[0]) then [a[0]] else [];
      assert (a + b)[0] == a[0];
      assert (a + b)[1..] == a[1..] + b;
      VisibleAppend(a[1..], b);
      calc {
        Visible(a + b);
        head + Visible(a[1..] + b);
        head + (Visible(a[1..]) + Visible(b));
        (head + Visible(a[1..])) + Visible(b);
        Visible(a) + Visible(b);
      }
    }
  }

  lemma {:induction false} TrimmedInvisible(s: string)
    requires forall i :: 0 <= i < |s| ==> IsTrimmed(s[i])
    ensures Visible(s) == []
    decreases |s|
  {
    if s != [] {
      TrimmedInvisible(s[1..]);
    }
  }

  lemma {:induction false} SpacesInvisible(s: string)
    requires forall i :: 0 <= i < |s| ==> IsSpace(s[i])
    ensures Visible(s) == []
    decreases |s|
  {
    if s != [] {
      SpacesInvisible(s[1..]);
    }
  }

  lemma WellSpacedCons(c: char, t: string)
    requires WellSpaced(t)
    requires IsSpace(c) ==> c == ' '
    requires c == ' ' && t != [] ==> t[0] != ' '
    ensures WellSpaced([c] + t)
  {
    var s := [c] + t;
    forall i | 0 <= i < |s| - 1
      ensures NoDoubleSpaceAt(s, i)
    {
      if i > 0 {
        assert NoDoubleSpaceAt(t, i - 1);
      }
    }
  }

  lemma WellSpacedSlice(s: string, lo: int, hi: int)
    requires WellSpaced(s)
    requires 0 <= lo <= hi <= |s|
    ensures WellSpaced(s[lo..hi])
  {
    var t := s[lo..hi];
    forall i | 0 <= i < |t| - 1
      ensures NoDoubleSpaceAt(t, i)
    {
      assert NoDoubleSpaceAt(s, lo + i);
    }
  }

  /** Collapsing whitespace keeps every visible character, in order. */
  lemma {:induction false} CollapseVisible(s: string)
    ensures Visible(Collapse(s)) == Visible(s)
    decreases |s|
  {
    if s == [] {
    } else if IsSpace(s[0]) {
      var rest := DropSpaces(s);
      var k := |s| - |rest|;
      CollapseVisible(rest);
      assert Collapse(s) == [' '] + Collapse(rest);
      VisibleAppend([' '], Collapse(rest));
      assert s == s[..k] + rest;
      VisibleAppend(s[..k], rest);
      SpacesInvisible(s[..k]);
    } else {
      CollapseVisible(s[1..]);
      assert Collapse(s) == [s[0]] + Collapse(s[1..]);
      VisibleAppend([s[0]], Collapse(s[1..]));
    }
  }

  /** A well-spaced string is a fixed point of `Collapse`. */
  lemma CollapseFixed(s: string)
    requires WellSpaced(s)
    ensures Collapse(s) == s
  {
    CollapseByPosition(s);
    CollapseFromFixed(s, 0);
    assert s[0..] == s;
  }

  /** In a well-spaced string no position is absorbed or changed. */
  lemma {:induction false} CollapseFromFixed(s: string, i: int)
    requires WellSpaced(s) && 0 <= i <= |s|
    ensures CollapseFrom(s, i) == s[i..]
    decreases |s| - i
  {
    if i < |s| {
      CollapseFromFixed(s, i + 1);
      if 0 < i {
        assert NoDoubleSpaceAt(s, i - 1);
      }
      assert Kept(s, i) == [s[i]];
      assert s[i..] == [s[i]] + s[i + 1..];
    }
  }


  /** A canonical query is its own canonical form. */
  lemma CanonicalFixed(s: string)
    requires IsCanonical(s)
    ensures Canonicalize(s) == s
  {
    assert ReplaceHyphens(s) == s;
    CollapseFixed(s);
    assert TrimLeft(s) == s;
    assert TrimRight(s) == s;
  }

  /** Canonicalising twice is canonicalising once. */
  lemma CanonicalizeIdempotent(city: string)
    ensures Canonicalize(Canonicalize(city)) == Canonicalize(city)
  {
    CanonicalizeIsCanonical(city);
    CanonicalFixed(Canonicalize(city));
  }

  /** Two queries share a cache key whenever they share a canonical form,
      and a query shares its key with its own canonical form. */
  lemma CacheKeyOfCanonical(digest: string -> string, city: string)
    ensures CacheKey(digest, Canonicalize(city)) == CacheKey(digest, city)
  {
    CanonicalizeIdempotent(city);
  }

  /** A query whose only irregularity is its hyphens canonicalises to
      itself with every hyphen turned into a comma. */
  lemma CanonicalizeOnlyReplaces(city: string)
    requires IsCanonical(ReplaceHyphens(city))
    ensures Canonicalize(city) == ReplaceHyphens(city)
  {
    CollapseFixed(ReplaceHyphens(city));
  }

  /** `Prata-PB`, written without spaces. */
  lemma CanonicalizeHyphenExample(city: string)
    requires city == "Prata-PB"
    ensures Canonicalize(city) == "Prata,PB"
  {
    assert ReplaceHyphens(city) == "Prata,PB";
    CanonicalizeOnlyReplaces(city);
  }

  /** `Recife - PE`, as the service's doc comment at line 26 writes it. */
  lemma CanonicalizeSpacedExample(city: string)
    requires city == "Recife - PE"
    ensures Canonicalize(city) == "Recife , PE"
  {
    assert ReplaceHyphens(city) == "Recife , PE";
    CanonicalizeOnlyReplaces(city);
  }

  /** `trim` strips a NUL at either end although NUL is not whitespace:
      a NUL in front of a canonical query does not reach the geocoder. */
  lemma CanonicalizeDropsLeadingNul(w: string)
    requires w != [] && IsCanonical(w)
    ensures Canonicalize(['\0'] + w) == w
  {
    var s := ['\0'] + w;
    assert '-' !in s;
    assert ReplaceHyphens(s) == s;
    WellSpacedCons('\0', w);
    CollapseFixed(s);
    assert s[1..] == w;
    assert TrimLeft(s) == TrimLeft(w) == w;
  }

  /** Skipping whitespace that continues a run adds nothing. */
  lemma {:induction false} SkipRun(s: string, a: int, b: int)
    requires 0 < a <= b <= |s|
    requires forall k :: a - 1 <= k < b ==> IsSpace(s[k])
    ensures CollapseFrom(s, a) == CollapseFrom(s, b)
    decreases b - a
  {
    if a < b {
      assert Absorbed(s, a);
      SkipRun(s, a + 1, b);
      assert CollapseFrom(s, a) == [] + CollapseFrom(s, a + 1);
    }
  }

  /** From a position that starts a run or holds no whitespace, the
      position-wise reading agrees with `Collapse` of the rest. */
  lemma {:induction false} CollapseFromSuffix(s: string, i: int)
    requires 0 <= i <= |s|
    requires i == |s| || !Absorbed(s, i)
    ensures CollapseFrom(s, i) == Collapse(s[i..])
    decreases |s| - i
  {
    if i < |s| {
      var t := s[i..];
      if !IsSpace(s[i]) {
        assert t[1..] == s[i + 1..];
        CollapseFromSuffix(s, i + 1);
        assert Collapse(t) == [s[i]] + Collapse(t[1..]);
      } else {
        var rest := DropSpaces(t);
        var j := |s| - |rest|;
        assert rest == s[j..];
        forall k | i <= k < j
          ensures IsSpace(s[k])
        {
          assert s[k] == t[k - i];
        }
        SkipRun(s, i + 1, j);
        CollapseFromSuffix(s, j);
        assert Collapse(t) == [' '] + Collapse(rest);
      }
    }
  }

  /** `Collapse` is the position-wise reading of the replacement: each
      maximal whitespace run becomes one space and nothing else changes. */
  lemma CollapseByPosition(s: string)
    ensures Collapse(s) == CollapseFrom(s, 0)
  {
    CollapseFromSuffix(s, 0);
    assert s[0..] == s;
  }

  /** A leading whitespace run is exactly what `DropSpaces` removes. */
  lemma {:induction false} DropSpacesRun(w: string, y: string)
    requires forall i :: 0 <= i < |w| ==> IsSpace(w[i])
    requires y == [] || !IsSpace(y[0])
    ensures DropSpaces(w + y) == y
    decreases |w|
  {
    if w == [] {
      assert w + y == y;
    } else {
      assert (w + y)[1..] == w[1..] + y;
      DropSpacesRun(w[1..], y);
    }
  }

  /** The position-wise reading of a prefix does not look past the prefix. */
  lemma {:induction false} CollapseFromPrefix(a: string, b: string, i: int)
    requires 0 <= i <= |a|
    ensures CollapseFrom(a + b, i) == CollapseFrom(a, i) + CollapseFrom(a + b, |a|)
    decreases |a| - i
  {
    if i < |a| {
      CollapseFromPrefix(a, b, i + 1);
      assert (a + b)[i] == a[i];
      if 0 < i {
        assert (a + b)[i - 1] == a[i - 1];
      }
      assert Absorbed(a + b, i) == Absorbed(a, i);
    }
  }

  /** Collapsing works piece by piece across a cut just after a character
      that is not whitespace. */
  lemma CollapseAppend(a: string, b: string)
    requires a == [] || !IsSpace(a[|a| - 1])
    ensures Collapse(a + b) == Collapse(a) + Collapse(b)
  {
    CollapseByPosition(a + b);
    CollapseByPosition(a);
    CollapseByPosition(b);
    CollapseFromPrefix(a, b, 0);
    if a != [] && b != [] {
      assert !Absorbed(a + b, |a|) by {
        assert (a + b)[|a| - 1] == a[|a| - 1];
      }
    }
    CollapseFromSuffix(a + b, |a|);
    assert (a + b)[|a|..] == b;
  }

  /** The last position is kept when it is not whitespace. */
  lemma {:induction false} CollapseFromLast(s: string, i: int)
    requires 0 <= i < |s| && !IsSpace(s[|s| - 1])
    ensures CollapseFrom(s, i) != [] && CollapseFrom(s, i)[|CollapseFrom(s, i)| - 1] == s[|s| - 1]
    decreases |s| - i
  {
    if i < |s| - 1 {
      CollapseFromLast(s, i + 1);
    }
  }

  /** The last character survives collapsing when it is not whitespace. */
  lemma CollapseLast(s: string)
    requires s != [] && !IsSpace(s[|s| - 1])
    ensures Collapse(s) != [] && Collapse(s)[|Collapse(s)| - 1] == s[|s| - 1]
  {
    CollapseByPosition(s);
    CollapseFromLast(s, 0);
  }

  /** A whitespace run between two non-whitespace pieces becomes one space. */
  lemma CollapseSeparates(x: string, w: string, y: string)
    requires x != [] && !IsSpace(x[|x| - 1])
    requires w != [] && forall i :: 0 <= i < |w| ==> IsSpace(w[i])
    requires y != [] && !IsSpace(y[0])
    ensures Collapse(x + w + y) == Collapse(x) + " " + Collapse(y)
  {
    Regroup(x, w, y);
    CollapseAppend(x, w + y);
    CollapseRun(w, y);
    Regroup(Collapse(x), " ", Collapse(y));
  }

  /** Concatenation is associative. */
  lemma Regroup(p: string, q: string, r: string)
    ensures p + (q + r) == p + q + r
  {
  }

  /** A leading whitespace run becomes one space. */
  lemma CollapseRun(w: string, y: string)
    requires w != [] && forall i :: 0 <= i < |w| ==> IsSpace(w[i])
    requires y == [] || !IsSpace(y[0])
    ensures Collapse(w + y) == " " + Collapse(y)
  {
    DropSpacesRun(w, y);
    assert (w + y)[0] == w[0];
  }

  /** `ltrim` stops before a character it does not strip. */
  lemma {:induction false} TrimLeftAppend(a: string, b: string)
    requires a != [] && !IsTrimmed(a[|a| - 1])
    ensures TrimLeft(a + b) == TrimLeft(a) + b
    decreases |a|
  {
    if IsTrimmed(a[0]) {
      assert (a + b)[1..] == a[1..] + b;
      TrimLeftAppend(a[1..], b);
    }
  }

  /** `rtrim` stops after a character it does not strip. */
  lemma {:induction false} TrimRightPrepend(a: string, b: string)
    requires b != [] && !IsTrimmed(b[0])
    ensures TrimRight(a + b) == a + TrimRight(b)
    decreases |b|
  {
    if IsTrimmed(b[|b| - 1]) {
      var c := b[..|b| - 1];
      assert (a + b)[..|a + b| - 1] == a + c;
      TrimRightPrepend(a, c);
    }
  }

  /** A space between two pieces with clean inner ends survives `trim`. */
  lemma TrimSeparates(a: string, b: string)
    requires a != [] && !IsTrimmed(a[|a| - 1])
    requires b != [] && !IsTrimmed(b[0])
    ensures Trim(a + " " + b) == Trim(a) + " " + Trim(b)
  {
    TrimEndsSeparate(a, b);
    TrimLeftKeepsLast(a);
  }

  /** `ltrim` stops in `a` and `rtrim` stops in `b`. */
  lemma TrimEndsSeparate(a: string, b: string)
    requires a != [] && !IsTrimmed(a[|a| - 1])
    requires b != [] && !IsTrimmed(b[0])
    ensures TrimRight(TrimLeft(a + " " + b)) == TrimLeft(a) + " " + TrimRight(b)
  {
    TrimLeftAround(a, b);
    TrimRightPrepend(TrimLeft(a) + " ", b);
  }

  /** `ltrim` only looks at `a` when `a` ends cleanly. */
  lemma TrimLeftAround(a: string, b: string)
    requires a != [] && !IsTrimmed(a[|a| - 1])
    ensures TrimLeft(a + " " + b) == TrimLeft(a) + " " + b
  {
    TrimLeftAppend(a, " " + b);
    Regroup(a, " ", b);
    Regroup(TrimLeft(a), " ", b);
  }

  /** `ltrim` of a piece with a clean last character keeps that character
      last, so `rtrim` has nothing left to do. */
  lemma TrimLeftKeepsLast(a: string)
    requires a != [] && !IsTrimmed(a[|a| - 1])
    ensures TrimLeft(a) != [] && TrimLeft(a)[|TrimLeft(a)| - 1] == a[|a| - 1]
    ensures TrimRight(TrimLeft(a)) == TrimLeft(a)
  {
  }

  /** Two words separated by any whitespace run reach the geocoder
      separated by exactly one space: `Rio  de Janeiro` stays three words. */
  lemma CanonicalizeSeparates(x: string, w: string, y: string)
    requires x != [] && IsVisible(x[|x| - 1])
    requires w != [] && forall i :: 0 <= i < |w| ==> IsSpace(w[i])
    requires y != [] && IsVisible(y[0])
    ensures Canonicalize(x + w + y) == Canonicalize(x) + " " + Canonicalize(y)
  {
    var x2, y2 := ReplaceHyphens(x), ReplaceHyphens(y);
    assert ReplaceHyphens(x + w + y) == x2 + w + y2;
    CollapseSeparates(x2, w, y2);
    var a, b := Collapse(x2), Collapse(y2);
    CollapseLast(x2);
    assert b == [y2[0]] + Collapse(y2[1..]);
    TrimSeparates(a, b);
  }
}

=== FILE: states.dfy ===
/** `formatState` (app/Services/WeatherService.php, lines 85-112): turns a
    Brazilian state name into its two-letter code by exact comparison of
    normalised names, and falls back to the name it was given. */
module States {
  import opened Values
  import opened Normalize

  /** The table of lines 89-99, in source order: state name, code. */
  const StateTable: seq<(string, string)> := [
    ("Paraiba", "PB"), ("Pernambuco", "PE"), ("Ceara", "CE"),
    ("Rio Grande do Norte", "RN"), ("Bahia", "BA"), ("Alagoas", "AL"),
    ("Sergipe", "SE"), ("Maranhao", "MA"), ("Piaui", "PI"),
    ("Sao Paulo", "SP"), ("Rio de Janeiro", "RJ"), ("Minas Gerais", "MG"),
    ("Espirito Santo", "ES"), ("Parana", "PR"), ("Rio Grande do Sul", "RS"),
    ("Santa Catarina", "SC"), ("Goias", "GO"), ("Mato Grosso", "MT"),
    ("Mato Grosso do Sul", "MS"), ("Distrito Federal", "DF"), ("Acre", "AC"),
    ("Amapa", "AP"), ("Amazonas", "AM"), ("Para", "PA"), ("Rondonia", "RO"),
    ("Roraima", "RR"), ("Tocantins", "TO")
  ]

  /** Entry `i` matches the normalised query `clean` (line 106). */
  predicate MatchesAt(clean: string, i: int)
    requires 0 <= i < |StateTable|
  {
    NormalizeString(StateTable[i].0) == clean
  }

  /** Some entry matches `clean`. */
  predicate Known(clean: string) {
    exists i :: 0 <= i < |StateTable| && MatchesAt(clean, i)
  }

  /** The `foreach` of lines 105-109 from entry `from` on: the first entry
      that matches, if any. */
  function FindFrom(clean: string, from: nat): (r: Option<nat>)
    requires from <= |StateTable|
    ensures r.Some? ==> from <= r.value < |StateTable| && MatchesAt(clean, r.value)
    ensures r.Some? ==> forall j :: from <= j < r.value ==> !MatchesAt(clean, j)
    ensures r.None? ==> forall j :: from <= j < |StateTable| ==> !MatchesAt(clean, j)
    decreases |StateTable| - from
  {
    if from == |StateTable| then None
    else if MatchesAt(clean, from) then Some(from)
    else FindFrom(clean, from + 1)
  }

  /** `formatState`, lines 85-112. A falsy input gives `null`; a name
      whose normalised form is that of a table entry gives the entry's
      code, whichever way it is capitalised or accented; anything else is
      returned as it came. */
  function FormatState(state: Option<string>): (r: Option<string>)
    ensures !Truthy(state) ==> r == None
    ensures Truthy(state) ==> r.Some?
    ensures forall i :: 0 <= i < |StateTable| && Truthy(state) && MatchesAt(NormalizeString(state.value), i) ==>
      r == Some(StateTable[i].1)
    ensures Truthy(state) && !Known(NormalizeString(state.value)) ==> r == state
  {
    if !Truthy(state) then None
    else
      match FindFrom(NormalizeString(state.value), 0)
      case Some(i) =>
        NormalizedNamesDistinct();
        Some(StateTable[i].1)
      case None => state
  }

  /** The table has 27 entries; every name is longer than a code and
      starts with a capital of Basic Latin; every code has two letters. */
  lemma TableEntries()
    ensures |StateTable| == 27
    ensures forall i :: 0 <= i < |StateTable| ==> |StateTable[i].0| > 2 && 'A' <= StateTable[i].0[0] <= 'Z'
    ensures forall i :: 0 <= i < |StateTable| ==> |StateTable[i].1| == 2
  {
  }

  /** No two names share both their length and their first letter. */
  lemma NamesSeparated()
    ensures forall i, j :: 0 <= i < j < |StateTable| ==>
      |StateTable[i].0| != |StateTable[j].0| || StateTable[i].0[0] != StateTable[j].0[0]
  {
  }

  /** No two entries share a code. */
  lemma CodesDistinct()
    ensures forall i, j :: 0 <= i < j < |StateTable| ==> StateTable[i].1 != StateTable[j].1
  {
  }

  /** No two names of the table normalise to the same string, so the
      first match of the `foreach` is the only one. */
  lemma NormalizedNamesDistinct()
    ensures forall i, j :: 0 <= i < |StateTable| && 0 <= j < |StateTable| && i != j ==>
      NormalizeString(StateTable[i].0) != NormalizeString(StateTable[j].0)
  {
    TableEntries();
    NamesSeparated();
    forall i, j | 0 <= i < |StateTable| && 0 <= j < |StateTable| && i != j
      ensures NormalizeString(StateTable[i].0) != NormalizeString(StateTable[j].0)
    {
      var a, b := StateTable[i].0, StateTable[j].0;
      if |a| == |b| {
        assert a[0] != b[0];
        FoldCapitalsInjective(a[0], b[0]);
        NormalizeCharwise(a);
        NormalizeCharwise(b);
        assert NormalizeString(a)[0] != NormalizeString(b)[0];
      }
    }
  }

  /** A two-letter string matches no entry: every name is longer. */
  lemma CodeIsUnknown(s: string)
    requires |s| == 2
    ensures !Known(NormalizeString(s))
  {
    TableEntries();
  }

  /** `formatState` gives the code of entry `i` exactly when the input
      matches entry `i`, or when the input already is that code. */
  lemma FormatStateGivesCode(s: string, i: int)
    requires Truthy(Some(s)) && 0 <= i < |StateTable|
    ensures FormatState(Some(s)) == Some(StateTable[i].1) <==>
      MatchesAt(NormalizeString(s), i) || s == StateTable[i].1
  {
    if s == StateTable[i].1 {
      CodeIsKept(s, i);
    }
    if FormatState(Some(s)) == Some(StateTable[i].1) {
      CodeComesFromMatch(s, i);
    }
  }

  /** A code of the table is returned as it is. */
  lemma CodeIsKept(s: string, i: int)
    requires 0 <= i < |StateTable| && s == StateTable[i].1
    ensures FormatState(Some(s)) == Some(s)
  {
    TableEntries();
    CodeIsUnknown(s);
  }

  /** The only inputs that give entry `i`'s code are those that match
      entry `i` and that code itself, since codes are distinct. */
  lemma CodeComesFromMatch(s: string, i: int)
    requires Truthy(Some(s)) && 0 <= i < |StateTable|
    requires FormatState(Some(s)) == Some(StateTable[i].1)
    ensures MatchesAt(NormalizeString(s), i) || s == StateTable[i].1
  {
    var clean := NormalizeString(s);
    if Known(clean) {
      var j :| 0 <= j < |StateTable| && MatchesAt(clean, j);
      assert StateTable[j].1 == StateTable[i].1;
      CodesDistinct();
      assert i == j;
    }
  }

  /** `formatState` gives back its own input when that input matches no
      entry, and otherwise a code: never a different name. */
  lemma FormatStateFallback(s: string)
    requires Truthy(Some(s))
    ensures FormatState(Some(s)) == Some(s) <==> !Known(NormalizeString(s))
  {
    var clean := NormalizeString(s);
    if Known(clean) {
      var j :| 0 <= j < |StateTable| && MatchesAt(clean, j);
      TableEntries();
      assert FormatState(Some(s)) == Some(StateTable[j].1);
      assert |s| == |clean| == |StateTable[j].0| > 2;
    }
  }

  /** A resolved state resolves to itself: codes are not names, and a name
      that was not found is not found again. */
  lemma FormatStateIdempotent(state: Option<string>)
    ensures FormatState(FormatState(state)) == FormatState(state)
  {
    if Truthy(state) {
      var clean := NormalizeString(state.value);
      if Known(clean) {
        var j :| 0 <= j < |StateTable| && MatchesAt(clean, j);
        var code := StateTable[j].1;
        assert FormatState(state) == Some(code);
        TableEntries();
        assert |code| == 2;
        assert Truthy(Some(code));
        CodeIsUnknown(code);
      }
    }
  }

  /** Each name of the table resolves to its own code. */
  lemma FormatStateOfName(i: int)
    requires 0 <= i < |StateTable|
    ensures FormatState(Some(StateTable[i].0)) == Some(StateTable[i].1)
  {
    TableEntries();
    assert MatchesAt(NormalizeString(StateTable[i].0), i);
  }

  /** A truthy string that agrees with entry `i`'s name character by
      character, up to case and the twelve accents, resolves to its code. */
  lemma FormatStateUpToFold(s: string, i: int)
    requires 0 <= i < |StateTable|
    ensures |s| == |StateTable[i].0| && (forall k :: 0 <= k < |s| ==> Fold(s[k]) == Fold(StateTable[i].0[k])) ==>
      FormatState(Some(s)) == Some(StateTable[i].1)
  {
    if |s| == |StateTable[i].0| && (forall k :: 0 <= k < |s| ==> Fold(s[k]) == Fold(StateTable[i].0[k])) {
      TableEntries();
      NormalizeCharwise(s);
      NormalizeCharwise(StateTable[i].0);
      assert MatchesAt(NormalizeString(s), i);
    }
  }

  /** `PERNAMBUCO` gives `PE`: case does not matter. */
  lemma FormatStateIgnoresCase(upper: string)
    requires upper == "PERNAMBUCO"
    ensures FormatState(Some(upper)) == Some("PE")
  {
    assert StateTable[1] == ("Pernambuco", "PE");
    var name := StateTable[1].0;
    assert |upper| == |name|;
    forall k | 0 <= k < |upper|
      ensures Fold(upper[k]) == Fold(name[k])
    {
    }
    FormatStateUpToFold(upper, 1);
  }

  /** `Paraíba` gives `PB`: accents do not matter. */
  lemma FormatStateIgnoresAccents(accented: string)
    requires accented == "Paraíba"
    ensures FormatState(Some(accented)) == Some("PB")
  {
    assert StateTable[0] == ("Paraiba", "PB");
    var name := StateTable[0].0;
    assert |accented| == |name|;
    forall k | 0 <= k < |accented|
      ensures Fold(accented[k]) == Fold(name[k])
    {
    }
    FormatStateUpToFold(accented, 0);
  }

  /** `PARAÍBA` gives `PB`: an accented capital folds like its
      lower-case vowel. */
  lemma FormatStateIgnoresAccentedCapitals(shouted: string)
    requires shouted == "PARAÍBA"
    ensures FormatState(Some(shouted)) == Some("PB")
  {
    assert StateTable[0] == ("Paraiba", "PB");
    var name := StateTable[0].0;
    assert |shouted| == |name|;
    forall k | 0 <= k < |shouted|
      ensures Fold(shouted[k]) == Fold(name[k])
    {
    }
    FormatStateUpToFold(shouted, 0);
  }

  /** `Mato Grosso` gives `MT`, not the `MS` of the longer name. */
  lemma FormatStateIsExact(mt: string)
    requires mt == "Mato Grosso"
    ensures FormatState(Some(mt)) == Some("MT")
  {
    assert StateTable[17] == (mt, "MT");
    FormatStateOfName(17);
  }

  /** `null`, `""` and `"0"` are falsy in PHP and give `null`. */
  lemma FormatStateFalsy(empty: string, zero: string)
    requires empty == "" && zero == "0"
    ensures FormatState(None) == None
    ensures FormatState(Some(empty)) == None
    ensures FormatState(Some(zero)) == None
  {
  }

  /** No name of the table begins with an N. */
  lemma NoNameBeginsWithN()
    ensures forall i :: 0 <= i < |StateTable| ==> StateTable[i].0[0] != 'N'
  {
  }

  /** A name beginning with `N` or `n` matches no entry, so it comes back
      unchanged: `Nonexistent State` is returned as it is. */
  lemma FormatStateKeepsUnknown(s: string)
    requires |s| > 0 && Fold(s[0]) == 'n'
    ensures FormatState(Some(s)) == Some(s)
  {
    TableEntries();
    NoNameBeginsWithN();
    NormalizeCharwise(s);
    forall i | 0 <= i < |StateTable|
      ensures !MatchesAt(NormalizeString(s), i)
    {
      var name := StateTable[i].0;
      NormalizeCharwise(name);
      FoldCapital(name[0]);
      assert NormalizeString(name)[0] != NormalizeString(s)[0];
    }
  }
}

=== FILE: values.dfy ===
/** Values shared by the weather service model: optional values, the JSON
    values the providers return, and PHP's truthiness of a nullable string. */
module Values {

  /** A PHP `?string` (or any nullable value): `None` stands for `null`. */
  datatype Option<+T> = None | Some(value: T)

  /** The outcome of a PHP call that may throw instead of returning. */
  datatype Outcome<+T> = Returned(value: T) | Raised(message: string)

  /** A decoded JSON value, as `$response->json()` hands it to the service. */
  datatype Json =
    | Null
    | Bool(b: bool)
    | Num(n: real)
    | Str(s: string)
    | Arr(items: seq<Json>)
    | Obj(fields: map<string, Json>)

  /** PHP truthiness of a `?string`: `null`, `""` and `"0"` are falsy. */
  predicate Truthy(s: Option<string>) {
    s.Some? && s.value != "" && s.value != "0"
  }

  /** A nullable string as the JSON value it is stored as. */
  function ToJson(s: Option<string>): (j: Json)
    ensures j.Null? <==> s.None?
    ensures s.Some? ==> j.Str? && j.s == s.value
  {
    match s
    case None => Null
    case Some(v) => Str(v)
  }
}

=== FILE: weather.dfy ===
/** The decision logic of `getWeather` (app/Services/WeatherService.php,
    lines 29-80) and `searchCities` (lines 125-145). The HTTP calls are
    given functions from the request parameters to the decoded response,
    so the contracts can say which request is made and what is done with
    each possible answer. */
module Weather {
  import opened Values
  import opened Query
  import opened Normalize
  import opened States

  /** One entry of the geocoding answer, with the fields the service
      reads. `state` is `None` when the entry carries no state. */
  datatype GeoCandidate = GeoCandidate(name: string, lat: real, lon: real, state: Option<string>, country: string)

  /** The geocoding call: `$response->failed()`, or the decoded list. */
  datatype GeoResponse = GeoFailed | GeoFound(candidates: seq<GeoCandidate>)

  /** The current-weather call: failed, or the decoded JSON object. */
  datatype ForecastResponse = ForecastFailed | ForecastFound(body: map<string, Json>)

  /** One suggestion of `searchCities`, lines 137-143. */
  datatype CityOption = CityOption(name: string, state: Option<string>, country: string, fullName: string)

  /** The geocoding endpoint, called with the `q` and `limit` parameters. */
  type Geocoder = (string, nat) -> GeoResponse

  /** The weather endpoint, called with the `lat` and `lon` parameters. */
  type Forecaster = (real, real) -> ForecastResponse

  /** `limit` of the geocoding call in `getWeather`, line 44. */
  const WeatherLimit: nat := 1

  /** `limit` of the geocoding call in `searchCities`, line 130. */
  const SearchLimit: nat := 5

  /** The key `getWeather` writes into the weather object, line 76. */
  const StateKey: string := "state"

  /** The candidate `getWeather` goes on with: the first one, when the
      call succeeded and `$json[0]` is set (lines 49-53). */
  function FirstCandidate(geo: GeoResponse): (c: Option<GeoCandidate>)
    ensures c.Some? <==> geo.GeoFound? && |geo.candidates| > 0
    ensures c.Some? ==> c.value == geo.candidates[0]
  {
    if geo.GeoFound? && |geo.candidates| > 0 then Some(geo.candidates[0]) else None
  }

  /** `$dadosClimaticos['state'] = …` of line 76: `state` is set to `v` and
      every other key of the weather object is kept as it was. */
  function WithState(body: map<string, Json>, v: Json): (r: map<string, Json>)
    ensures r.Keys == body.Keys + {StateKey}
    ensures r[StateKey] == v
    ensures forall k :: k in body && k != StateKey ==> r[k] == body[k]
  {
    body[StateKey := v]
  }

  /** The closure of lines 38-79, which runs on a cache miss for the
      canonical query `query`. */
  function FetchWeather(query: string, geocode: Geocoder, forecast: Forecaster): (r: Option<map<string, Json>>)
    ensures var geo := geocode(query, WeatherLimit);
      geo.GeoFailed? || geo.candidates == [] ==> r == None
    ensures var geo := geocode(query, WeatherLimit);
      geo.GeoFound? && geo.candidates != [] ==>
        var c := geo.candidates[0];
        match forecast(c.lat, c.lon)
        case ForecastFailed => r == None
        case ForecastFound(body) =>
          r == Some(WithState(body, ToJson(FormatState(c.state))))
  {
    match FirstCandidate(geocode(query, WeatherLimit))
    case None => None
    case Some(c) =>
      match forecast(c.lat, c.lon)
      case ForecastFailed => None
      case ForecastFound(body) => Some(WithState(body, ToJson(FormatState(c.state))))
  }

  /** `getWeather`, lines 29-80, on a cache miss. The geocoder is asked for
      one candidate for the canonical query; a failed or empty answer, or a
      failed weather call at the first candidate's coordinates, gives
      `null`. Otherwise the weather object comes back with `state` set to
      the resolved state of that candidate and every other key untouched. */
  function GetWeather(city: string, geocode: Geocoder, forecast: Forecaster): (r: Option<map<string, Json>>)
    ensures var geo := geocode(Canonicalize(city), WeatherLimit);
      geo.GeoFailed? || geo.candidates == [] ==> r == None
    ensures var geo := geocode(Canonicalize(city), WeatherLimit);
      geo.GeoFound? && geo.candidates != [] ==>
        var c := geo.candidates[0];
        match forecast(c.lat, c.lon)
        case ForecastFailed => r == None
        case ForecastFound(body) =>
          r == Some(WithState(body, ToJson(FormatState(c.state))))
  {
    FetchWeather(Canonicalize(city), geocode, forecast)
  }

  /** The value cached under a query's key is the value every query with
      the same canonical form would compute, so serving it to them is
      sound; and the canonical form itself maps to the same key and value. */
  lemma CacheEntryServesEquivalentQueries(digest: string -> string, a: string, b: string, geocode: Geocoder, forecast: Forecaster)
    ensures Canonicalize(a) == Canonicalize(b) ==>
      CacheKey(digest, a) == CacheKey(digest, b) && GetWeather(a, geocode, forecast) == GetWeather(b, geocode, forecast)
    ensures CacheKey(digest, Canonicalize(a)) == CacheKey(digest, a)
    ensures GetWeather(Canonicalize(a), geocode, forecast) == GetWeather(a, geocode, forecast)
  {
    CanonicalizeIdempotent(a);
  }

  /** The JSON value written into `state` for a candidate's state: the
      code of the entry it matches, the state itself when it matches none,
      and `null` when it is falsy. */
  lemma StateFieldCases(state: Option<string>)
    ensures !Truthy(state) ==> ToJson(FormatState(state)) == Null
    ensures Truthy(state) && !Known(NormalizeString(state.value)) ==> ToJson(FormatState(state)) == Str(state.value)
    ensures forall i :: 0 <= i < |StateTable| && Truthy(state) && MatchesAt(NormalizeString(state.value), i) ==>
      ToJson(FormatState(state)) == Str(StateTable[i].1)
  {
  }

  /** On success the `state` field holds the code of the table entry the
      candidate's state matches, the candidate's own state when it matches
      none, and `null` when the candidate's state is falsy. Stated for the
      query as it reaches the geocoder, so it covers `GetWeather`, which
      is `FetchWeather` of the canonical query. */
  lemma FetchWeatherStateField(query: string, geocode: Geocoder, forecast: Forecaster)
    requires FetchWeather(query, geocode, forecast).Some?
    ensures var c := geocode(query, WeatherLimit).candidates[0];
      var field := FetchWeather(query, geocode, forecast).value[StateKey];
      && (!Truthy(c.state) ==> field == Null)
      && (Truthy(c.state) && !Known(NormalizeString(c.state.value)) ==> field == Str(c.state.value))
      && (forall i :: 0 <= i < |StateTable| && Truthy(c.state) && MatchesAt(NormalizeString(c.state.value), i) ==>
            field == Str(StateTable[i].1))
  {
    var c := geocode(query, WeatherLimit).candidates[0];
    assert FetchWeather(query, geocode, forecast).value[StateKey] == ToJson(FormatState(c.state));
    StateFieldCases(c.state);
  }

  /** `Prata-PB` is looked up as `Prata,PB`, whatever the providers answer. */
  lemma GetWeatherQueriesCanonicalForm(city: string, geocode: Geocoder, forecast: Forecaster)
    requires city == "Prata-PB"
    ensures GetWeather(city, geocode, forecast) == FetchWeather("Prata,PB", geocode, forecast)
  {
    CanonicalizeHyphenExample(city);
  }

  /** `full_name` of line 142: the name, followed by ` - ` and the state
      as the provider spelled it when that state is truthy. */
  function FullName(c: GeoCandidate): string {
    if Truthy(c.state) then c.name + " - " + c.state.value else c.name
  }

  /** The array built for one candidate, lines 137-143. */
  function ToCityOption(c: GeoCandidate): CityOption {
    CityOption(c.name, FormatState(c.state), c.country, FullName(c))
  }

  /** `searchCities`, lines 125-145, with line 142 read as intended (a
      candidate without a state gets its bare name). The raw query goes to
      the geocoder with a limit of five; a failed call gives no
      suggestions; otherwise there is one suggestion per candidate, in the
      provider's order, with name and country copied, the state resolved,
      and the full name built from the unresolved state. */
  function SearchCities(query: string, geocode: Geocoder): (r: seq<CityOption>)
    ensures geocode(query, SearchLimit).GeoFailed? ==> r == []
    ensures geocode(query, SearchLimit).GeoFound? ==>
      var cs := geocode(query, SearchLimit).candidates;
      && |r| == |cs|
      && forall i :: 0 <= i < |cs| ==>
        && r[i].name == cs[i].name
        && r[i].country == cs[i].country
        && r[i].state == FormatState(cs[i].state)
        && (Truthy(cs[i].state) ==> r[i].fullName == cs[i].name + " - " + cs[i].state.value)
        && (!Truthy(cs[i].state) ==> r[i].fullName == cs[i].name)
  {
    match geocode(query, SearchLimit)
    case GeoFailed => []
    case GeoFound(cs) => seq(|cs|, i requires 0 <= i < |cs| => ToCityOption(cs[i]))
  }

  /** Every suggested state is already resolved: feeding it back through
      `formatState` changes nothing. */
  lemma SearchCitiesStatesResolved(query: string, geocode: Geocoder)
    ensures forall o :: o in SearchCities(query, geocode) ==> FormatState(o.state) == o.state
  {
    forall o | o in SearchCities(query, geocode)
      ensures FormatState(o.state) == o.state
    {
      var cs := geocode(query, SearchLimit).candidates;
      var i :| 0 <= i < |cs| && o == ToCityOption(cs[i]);
      FormatStateIdempotent(cs[i].state);
    }
  }

  /** The full name keeps the state as the provider spelled it while the
      `state` field holds the code: a candidate in `Pernambuco` is
      suggested with state `PE` and full name `<name> - Pernambuco`. */
  lemma FullNameKeepsRawState(c: GeoCandidate, i: int)
    requires 0 <= i < |StateTable| && c.state == Some(StateTable[i].0)
    ensures ToCityOption(c).state == Some(StateTable[i].1)
    ensures ToCityOption(c).fullName == c.name + " - " + StateTable[i].0
  {
    TableEntries();
    FormatStateOfName(i);
  }

  /** Lines 136-144 as written. Line 142 reads `$item['state']` without the
      `?? null` of line 139, so a candidate without a state raises an
      undefined-key error, and the whole call raises with it. */
  function ShapeAsWritten(cs: seq<GeoCandidate>): (r: Outcome<seq<CityOption>>)
    ensures r.Raised? <==> exists i :: 0 <= i < |cs| && cs[i].state.None?
    ensures r.Returned? ==> |r.value| == |cs| && forall i :: 0 <= i < |cs| ==> r.value[i] == ToCityOption(cs[i])
  {
    if cs == [] then Returned([])
    else if cs[0].state.None? then Raised("Undefined array key \"state\"")
    else
      match ShapeAsWritten(cs[1..])
      case Raised(m) => Raised(m)
      case Returned(rest) => Returned([ToCityOption(cs[0])] + rest)
  }

  /** `searchCities` as written: it raises exactly when the call succeeded
      and some candidate has no state, and otherwise agrees with the
      intended `SearchCities`. */
  function SearchCitiesAsWritten(query: string, geocode: Geocoder): (r: Outcome<seq<CityOption>>)
    ensures r.Raised? <==> (
      && geocode(query, SearchLimit).GeoFound?
      && exists i :: 0 <= i < |geocode(query, SearchLimit).candidates| && geocode(query, SearchLimit).candidates[i].state.None?)
    ensures r.Returned? ==> r.value == SearchCities(query, geocode)
  {
    match geocode(query, SearchLimit)
    case GeoFailed => Returned([])
    case GeoFound(cs) => ShapeAsWritten(cs)
  }

  /** A candidate without a state (a place the provider reports with no
      state) makes the code as written raise, where the intended
      `SearchCities` suggests the bare name. */
  lemma StatelessCandidateRaises(query: string, geocode: Geocoder)
    requires forall q, n :: geocode(q, n) == GeoFound([GeoCandidate("Vaduz", 47.14, 9.52, None, "LI")])
    ensures SearchCitiesAsWritten(query, geocode).Raised?
    ensures SearchCities(query, geocode) == [CityOption("Vaduz", None, "LI", "Vaduz")]
  {
    var cs := geocode(query, SearchLimit).candidates;
    assert cs[0].state.None?;
  }
}
